=== FILE: README.md ===
# XR performance lab scripts — a Dafny model

This project models the scripts' own logic in four Unity behaviours of an
XR rendering benchmark scene. Engine objects are plain values.

- **PerformanceOverlay** (`performance_overlay.dfy`). The overlay keeps a
  bounded FIFO of frame times with a running sum. It derives the smoothed
  frame time and the FPS from that window. It averages each profiler
  recorder's nanosecond samples into milliseconds, and returns the sentinel
  -1 when a recorder has nothing to average. `FormatMs` shows that sentinel
  (and every other negative value) as "N/A".
- **InstancingSpawner** (`instancing_spawner.dfy`). The first spawn
  allocates `count` objects that share one material. Every later spawn only
  swaps that material on the existing objects. `ClearAll` destroys
  everything and resets the spawner.
- **OverdrawToggle** (`overdraw_toggle.dfy`). "On" and "Nuke" check the
  four scene references, show the experiment and re-parent the stack. They
  then clear the old quads and build N new ones, at increasing depth when `zStep > 0`, all
  sharing one material instance with the configured alpha. "Off" clears the
  stack and hides the experiment.
- **MSAAController** (`msaa_controller.dfy`). Each of the four buttons
  makes its own render-pipeline asset active, and a null asset changes
  nothing. Enabling the controller remembers the active pipeline. Disabling
  it restores that pipeline when `restoreOnDisable` is set and one was
  remembered.

Each operation is a pure function from state to state. Invariants and
multi-step properties are lemmas. `wrappers.dfy` holds the `Option` type
used for null references.

How engine values are represented:
- GameObjects, transforms, materials and pipeline assets are ids.
- A null reference is `None`.
- Destroying an object removes its id from a set of live ids.
- The global `QualitySettings.renderPipeline` is a field beside the
  controller. `None` there means no pipeline asset is set on the quality
  level, so the graphics settings' default pipeline is used.
- The frame's `Time.unscaledDeltaTime` and each recorder's state are
  parameters of the overlay update.
- A float division with a zero divisor (NaN or an infinity in the source)
  is `None`.

Behaviour of the code that the model keeps as it is:
- The code does not clamp negative frame times; they enter the window and
  the running sum unchanged.
- "No data" from a recorder is the value -1, not a separate state.
- A recorder that yields no samples shows "N/A" on that update; its last
  value is not kept.
- There is no stop operation; recorders are disposed when the overlay is
  disabled, which is not modelled.
- With a window size of 0 or less, the queue empties on every update. The
  average is then 0/0, so it has no finite value.

## Model

| member | source | states |
|---|---|---|
| PerformanceOverlay.SumAppend | Assets/Scripts/PerformanceOverlay.cs:61-62 | enqueuing a frame time adds exactly that value to the queue's sum |
| PerformanceOverlay.SumDropFirst | Assets/Scripts/PerformanceOverlay.cs:64-65 | dequeuing the oldest frame time subtracts exactly that value from the queue's sum |
| PerformanceOverlay.Divide | Assets/Scripts/PerformanceOverlay.cs:67-68 | a float quotient is finite exactly when the divisor is non-zero, and then it times the divisor gives the dividend |
| PerformanceOverlay.Push | Assets/Scripts/PerformanceOverlay.cs:61-65 | one update grows the queue by one or keeps its length (a single eviction), and with sampleCount >= 1 the newest frame time is last |
| PerformanceOverlay.PushKeepsValid | Assets/Scripts/PerformanceOverlay.cs:61-65 | an update keeps frameTimeSum equal to the sum of the queued values and the queue no longer than max(sampleCount, 0) |
| PerformanceOverlay.PushSlides | Assets/Scripts/PerformanceOverlay.cs:61-65 | if the queue holds the last values seen, then after one more update it holds the last values including the new one |
| PerformanceOverlay.RunIsValid | Assets/Scripts/PerformanceOverlay.cs:61-65 | after any sequence of pushes the running sum equals the sum of the queued values and the queue is no longer than max(sampleCount, 0) |
| PerformanceOverlay.RunIsSuffix | Assets/Scripts/PerformanceOverlay.cs:61-65 | after any sequence of pushes the queue holds exactly the last min(n, max(sampleCount, 0)) frame times, in arrival order |
| PerformanceOverlay.RunKeepsLastFrames | Assets/Scripts/PerformanceOverlay.cs:61-65 | after any sequence of pushes the queue holds exactly the last min(n, max(sampleCount, 0)) frame times in arrival order, and the running sum equals their sum |
| PerformanceOverlay.Stats | Assets/Scripts/PerformanceOverlay.cs:67-68 | the average times the current occupancy (not the capacity) equals the running sum; fps times the average is 1000; either is defined only when its divisor is non-zero |
| PerformanceOverlay.AverageIsMeanOfLastFrames | Assets/Scripts/PerformanceOverlay.cs:61-67 | with sampleCount >= 1, after at least one update the average exists and is the mean of the last min(n, sampleCount) frame times |
| PerformanceOverlay.NonPositiveSampleCountHasNoAverage | Assets/Scripts/PerformanceOverlay.cs:64-68 | with sampleCount <= 0 the queue is always empty, so the divisor is 0 and neither the average nor fps is finite |
| PerformanceOverlay.ExampleCapacityTwo | Assets/Scripts/PerformanceOverlay.cs:61-68 | sampleCount 2 with frames 10, 20, 30 leaves [20, 30]: average 25 ms, 40 FPS |
| PerformanceOverlay.ExampleCapacityThree | Assets/Scripts/PerformanceOverlay.cs:61-68 | sampleCount 3 with frames 10, 20, 30 gives an average of 20 ms and 50 FPS |
| PerformanceOverlay.RecorderAverageMs | Assets/Scripts/PerformanceOverlay.cs:83-102 | an invalid recorder, a count <= 0 or an empty copied batch give -1; otherwise the result times 1,000,000 times the batch size is the sum of the nanosecond samples |
| PerformanceOverlay.RecorderAverageNonNegative | Assets/Scripts/PerformanceOverlay.cs:96-101 | with non-negative samples the average is non-negative and equals the samples' mean divided by 1,000,000 |
| PerformanceOverlay.GetRecorderAverageMs | Assets/Scripts/PerformanceOverlay.cs:83-102 | the summing loop over the copied batch computes the recorder average, and gives -1 whenever there is nothing to average |
| PerformanceOverlay.FormatMs | Assets/Scripts/PerformanceOverlay.cs:104-108 | the value shows as "N/A" exactly when it is negative; otherwise the value itself is shown, 0 included |
| PerformanceOverlay.RecorderShowsNotAvailableIffNoSamples | Assets/Scripts/PerformanceOverlay.cs:85-107 | with non-negative samples a recorder shows "N/A" if and only if it is invalid, reports no samples or copies an empty batch |
| PerformanceOverlay.Update | Assets/Scripts/PerformanceOverlay.cs:56-81 | an update keeps sampleCount, always has a frame-time average when sampleCount >= 1, and shows "N/A" for every recorder without samples |
| PerformanceOverlay.UpdateKeepsValid | Assets/Scripts/PerformanceOverlay.cs:59-65 | an update keeps the frame-time window consistent: sum equals contents, length within max(sampleCount, 0) |
| PerformanceOverlay.UpdatesRun | Assets/Scripts/PerformanceOverlay.cs:56-65 | any sequence of updates from a fresh overlay leaves the window that pushing the deltas times 1000 into an empty window gives |
| PerformanceOverlay.UpdatesKeepLastFrames | Assets/Scripts/PerformanceOverlay.cs:56-65 | after n updates from a fresh overlay the window holds exactly the last min(n, max(sampleCount, 0)) frame times in ms, in arrival order, with a consistent sum |
| InstancingSpawner.Initial | Assets/Scripts/InstancingSpawner.cs:20-21 | a new spawner holds no array and satisfies the bookkeeping invariant |
| InstancingSpawner.SwapMaterials | Assets/Scripts/InstancingSpawner.cs:130-138 | swapping keeps the array length, the null entries and the object identities, and every object with a renderer ends up drawing with the new material |
| InstancingSpawner.Allocate | Assets/Scripts/InstancingSpawner.cs:144-173 | a first spawn creates exactly count non-null objects with distinct identities, each with a renderer drawing with the material |
| InstancingSpawner.AllocatedIds | Assets/Scripts/InstancingSpawner.cs:147-173 | the allocated objects are exactly the next count unused identities |
| InstancingSpawner.Spawn | Assets/Scripts/InstancingSpawner.cs:119-175 | a null material changes nothing; with objects present only materials change and nothing is allocated; otherwise count new objects using the material; currentMaterial becomes the material |
| InstancingSpawner.FirstSpawnIsFresh | Assets/Scripts/InstancingSpawner.cs:144-173 | a first spawn's objects are new, pairwise distinct, and all become live children of the spawner |
| InstancingSpawner.SpawnKeepsInv | Assets/Scripts/InstancingSpawner.cs:119-175 | spawning keeps every referenced object a live child and never references one object twice |
| InstancingSpawner.SpawnNoInstancing | Assets/Scripts/InstancingSpawner.cs:34-37 | spawns with materialNoInstancing: nothing happens if it is null, otherwise it becomes current and is drawn by every object |
| InstancingSpawner.SpawnInstancing | Assets/Scripts/InstancingSpawner.cs:39-42 | spawns with materialInstancing: nothing happens if it is null, otherwise it becomes current and is drawn by every object |
| InstancingSpawner.ClearAll | Assets/Scripts/InstancingSpawner.cs:44-73 | clearing leaves no array, no current material and no live child, and keeps the settings |
| InstancingSpawner.ClearAllIdempotent | Assets/Scripts/InstancingSpawner.cs:44-73 | clearing twice is the same as clearing once |
| InstancingSpawner.ClearAllKeepsInv | Assets/Scripts/InstancingSpawner.cs:44-73 | from any state, clearing leaves nothing referenced and nothing live, so the bookkeeping holds again |
| InstancingSpawner.SpawnIdempotent | Assets/Scripts/InstancingSpawner.cs:128-141 | spawning the same material twice is the same as spawning it once |
| InstancingSpawner.CountFixedUntilClear | Assets/Scripts/InstancingSpawner.cs:128-144 | for count > 0, a change of count after the first spawn does not resize the array, and takes effect only after ClearAll |
| OverdrawToggle.Initial | Assets/Scripts/OverdrawToggle.cs:23 | a freshly loaded toggle has no quad array and no live quad, so the bookkeeping holds from the start |
| OverdrawToggle.Awake | Assets/Scripts/OverdrawToggle.cs:25-29 | the experiment root starts hidden when assigned, and nothing changes otherwise |
| OverdrawToggle.ClearQuads | Assets/Scripts/OverdrawToggle.cs:128-137 | clearing destroys every referenced quad and leaves no array; with no array it changes nothing |
| OverdrawToggle.ClearQuadsIdempotent | Assets/Scripts/OverdrawToggle.cs:128-137 | clearing twice is the same as clearing once |
| OverdrawToggle.BuildQuads | Assets/Scripts/OverdrawToggle.cs:92-126 | building n quads yields exactly n non-null quads under the stack root. Quad i is at (0, 0, startDistance + i*zStep) with scale (size.x, size.y, 1). All quads share one instance of the overdraw material whose alpha is the configured alpha, and all are new |
| OverdrawToggle.Rebuild | Assets/Scripts/OverdrawToggle.cs:31-54 | missing references change nothing. Otherwise the root is active and the stack's parent is the camera (attachToCamera) or else the experiment root. The old quads are destroyed and a stack of n new ones is built |
| OverdrawToggle.OverdrawOn | Assets/Scripts/OverdrawToggle.cs:31-54 | with all references, ends with exactly quadCount stacked quads, the root active and the stack parented as configured; otherwise no change |
| OverdrawToggle.OverdrawNuke | Assets/Scripts/OverdrawToggle.cs:55-78 | with all references, ends with exactly quadNukeCount stacked quads, the root active and the stack parented as configured; otherwise no change |
| OverdrawToggle.OverdrawOff | Assets/Scripts/OverdrawToggle.cs:80-90 | no array is left and its quads are destroyed. The stack goes back under the experiment root when both are assigned, and the root is hidden when assigned |
| OverdrawToggle.RebuildKeepsInv | Assets/Scripts/OverdrawToggle.cs:51-53 | after On or Nuke the live quads are exactly the new stack, so every earlier quad has been destroyed |
| OverdrawToggle.OffLeavesNoQuads | Assets/Scripts/OverdrawToggle.cs:80-90 | after Off no quad is alive |
| OverdrawToggle.AwakeKeepsInv | Assets/Scripts/OverdrawToggle.cs:25-29 | hiding the experiment root at start-up keeps the bookkeeping: the live quads stay exactly the referenced ones |
| OverdrawToggle.StackDepthIncreasing | Assets/Scripts/OverdrawToggle.cs:104-110 | with zStep > 0 the quads' depths strictly increase with their index |
| MsaaController.Apply | Assets/Scripts/MSAAController.cs:35-47 | a null asset changes nothing; a non-null one becomes the active pipeline; the controller's own fields are kept |
| MsaaController.SetMsaa | Assets/Scripts/MSAAController.cs:30-33 | the 0x, 2x, 4x and 8x buttons each activate exactly their own asset (urpMsaa0, urpMsaa2, urpMsaa4, urpMsaa8), and leave the active pipeline as it was when that asset is null |
| MsaaController.OnEnable | Assets/Scripts/MSAAController.cs:18-22 | enabling remembers the active pipeline and does not change it |
| MsaaController.OnDisable | Assets/Scripts/MSAAController.cs:24-28 | disabling restores the remembered pipeline if and only if restoreOnDisable is set and one was remembered; otherwise nothing changes |
| MsaaController.PressEffect | Assets/Scripts/MSAAController.cs:30-43 | after any sequence of button presses the active pipeline is the last non-null asset pressed (or the original), and the remembered pipeline is kept |
| MsaaController.LastAppliedFirst | Assets/Scripts/MSAAController.cs:37-43 | a press is overridden by any later press of a non-null asset |
| MsaaController.SessionRestoresPipeline | Assets/Scripts/MSAAController.cs:18-28 | enable, any presses, then disable returns the original pipeline when restoring is on and a pipeline asset was set on the quality level at enable time |
| MsaaController.SessionWithoutRestoreKeepsLastApplied | Assets/Scripts/MSAAController.cs:24-28 | with restoreOnDisable off, disabling keeps the last applied pipeline |
| MsaaController.SessionFromNullPipelineKeepsLastApplied | Assets/Scripts/MSAAController.cs:24-28 | when no pipeline asset was set on the quality level at enable time, nothing is remembered and disabling keeps the last applied pipeline |

## Left out

- Float rounding. All of the source's `float` and `double` quantities are `real`s: the frame-time durations (the float running sum's drift is idealised away), the recorder average (the `double` sum of `long` samples at Assets/Scripts/PerformanceOverlay.cs:96-98 is taken as exact, and the final `(float)` cast at line 101 is idealised away), and the quad geometry of the overdraw stack (`startDistance + i * zStep`, `quadSize`, `alpha`).
- OverdrawToggle.StackDepthIncreasing: holds for exact arithmetic only. In single precision a large `startDistance` next to a small `zStep` rounds neighbouring quads to the same depth (with 1e6 and 0.01, quads 0–3 all sit at 1e6 and quads 4–9 at 1e6 + 0.0625), so the depths are only non-decreasing; the defaults (1.2 and 0.01) keep the depths increasing for up to 400 quads.
- Profiler recorder lifetime: `StartNew`, `Dispose`, `EnsureCapacity` and the copy mechanics (PerformanceOverlay.cs:24-54, 90-93). A recorder is a validity flag, a reported count and the copied batch.
- The commented-out `StartFirstValidRecorder` (PerformanceOverlay.cs:118-128) and the commented-out old `Spawn` (InstancingSpawner.cs:75-118).
- Text output. The overlay text, the `F1`/`F2` digit formats and the "ms" suffix are not modelled. A readout holds the values, and "N/A" versus a value is modelled.
- Changing `sampleCount` at run time. It is fixed per overlay. Only one value is dequeued per update, so shrinking it mid-run would let the queue stay longer than the new size for a while.
- Engine calls: `CreatePrimitive`, `new GameObject`, `AddComponent`, `SetParent` transform math (`worldPositionStays`), `isStatic` and colliders. Destruction is modelled as immediate removal from the live set, without Unity's end-of-frame timing or the `Destroy`/`DestroyImmediate` choice.
- Random spawn positions and rotations (InstancingSpawner.cs:152-158), `area`, `baseScale`, `mesh`, and the mesh fallback in `InstancingSpawner.Awake` (InstancingSpawner.cs:23-32).
- Spawner children that were not in the `spawned` array: `ClearAll` destroys all children, and the model's live set is exactly the spawner's children.
- Negative `count`, `quadCount` or `quadNukeCount`. They are `nat`s: taken to be non-negative, and the inspector ranges (10-25000 and 4-400) suggest positive values, though `[Range]` only clamps the inspector slider and any script can set these public fields. A negative value makes the array allocation throw: in InstancingSpawner at Assets/Scripts/InstancingSpawner.cs:144, and in OverdrawToggle at Assets/Scripts/OverdrawToggle.cs:94, after `ClearQuads` has already destroyed the old stack.
- Quad names, identity rotation, collider removal and the unused `addDoubleSided` flag (OverdrawToggle.cs:107-116, 20).
- `Debug.Log` / `Debug.LogError` messages, including `logToConsole` and the button labels in the MSAA controller.
- RandomRotation.cs entirely: quaternion interpolation and random angles are engine numerics and randomness.

=== FILE: instancing_spawner.dfy ===
/**
 * The instancing spawner: the first spawn allocates `count` objects that all
 * draw with one shared material; every later spawn only swaps that material
 * on the existing objects; `ClearAll` destroys everything and resets.
 *
 * Engine objects are reduced to identities: a GameObject is an id plus its
 * MeshRenderer (if it still has one), a material is an id, and the spawner's
 * live children are a set of ids. Destroyed or missing references are `None`.
 */
module InstancingSpawner {
  import opened Wrappers

  datatype Material = Material(id: nat)

  /** A MeshRenderer component, reduced to the material it draws with. */
  datatype Renderer = Renderer(sharedMaterial: Material)

  /** A spawned GameObject: its identity and its MeshRenderer, if it has one. */
  datatype Obj = Obj(id: nat, renderer: Option<Renderer>)

  /**
   * The spawner's fields. `spawned` is the `spawned` array (`None` for null,
   * entries `None` for destroyed objects); `children` are the ids of the live
   * objects parented under the spawner; `nextId` is the next unused identity.
   */
  datatype Spawner = Spawner(
    materialNoInstancing: Option<Material>,
    materialInstancing: Option<Material>,
    count: nat,
    spawned: Option<seq<Option<Obj>>>,
    currentMaterial: Option<Material>,
    children: set<nat>,
    nextId: nat)

  /** The spawner already holds a non-empty array of objects. */
  predicate Populated(s: Spawner)
  {
    s.spawned.Some? && |s.spawned.value| > 0
  }

  /** Every entry that is an object with a renderer draws with `m`. */
  predicate AllDrawWith(objs: seq<Option<Obj>>, m: Material)
  {
    forall i :: 0 <= i < |objs| && objs[i].Some? && objs[i].value.renderer.Some? ==>
      objs[i].value.renderer.value.sharedMaterial == m
  }

  /** The same array of the same objects: only renderer materials may differ. */
  predicate SameObjects(a: seq<Option<Obj>>, b: seq<Option<Obj>>)
  {
    && |a| == |b|
    && (forall i :: 0 <= i < |a| ==> a[i].Some? == b[i].Some?)
    && (forall i :: 0 <= i < |a| && a[i].Some? ==>
          a[i].value.id == b[i].value.id && a[i].value.renderer.Some? == b[i].value.renderer.Some?)
  }

  /** The ids of the objects an array references. */
  function Ids(objs: seq<Option<Obj>>): set<nat>
  {
    set i | 0 <= i < |objs| && objs[i].Some? :: objs[i].value.id
  }

  /**
   * Bookkeeping that every reachable spawner satisfies: the referenced
   * objects are live children, all ids are below `nextId`, and no object is
   * referenced twice.
   */
  ghost predicate Inv(s: Spawner)
  {
    && (forall id :: id in s.children ==> id < s.nextId)
    && (s.spawned.Some? ==>
          && Ids(s.spawned.value) <= s.children
          && (forall i, j :: 0 <= i < j < |s.spawned.value| && s.spawned.value[i].Some? && s.spawned.value[j].Some? ==>
                s.spawned.value[i].value.id != s.spawned.value[j].value.id))
  }

  /** The state before anything is spawned. */
  function Initial(materialNoInstancing: Option<Material>, materialInstancing: Option<Material>, count: nat): (s: Spawner)
    ensures Inv(s) && !Populated(s)
  {
    Spawner(materialNoInstancing, materialInstancing, count, None, None, {}, 0)
  }

  /** Set the material of one entry's renderer; null entries and entries without a renderer are skipped. */
  function SwapOne(o: Option<Obj>, m: Material): Option<Obj>
  {
    match o
    case None => None
    case Some(obj) =>
      if obj.renderer.None? then o else Some(obj.(renderer := Some(Renderer(m))))
  }

  /** Swap the material on every existing object, keeping the array and the objects. */
  function SwapMaterials(objs: seq<Option<Obj>>, m: Material): (r: seq<Option<Obj>>)
    ensures SameObjects(objs, r)
    ensures AllDrawWith(r, m)
  {
    seq(|objs|, i requires 0 <= i < |objs| => SwapOne(objs[i], m))
  }

  /** `n` new objects with ids `first`, `first + 1`, ..., each with a renderer drawing with `m`. */
  function Allocate(first: nat, n: nat, m: Material): (r: seq<Option<Obj>>)
    ensures |r| == n
    ensures forall i :: 0 <= i < n ==> r[i].Some? && r[i].value.id == first + i
    ensures AllDrawWith(r, m)
    ensures forall i :: 0 <= i < n ==> r[i].value.renderer.Some?
  {
    seq(n, i requires 0 <= i < n => Some(Obj(first + i, Some(Renderer(m)))))
  }

  /** The objects allocated from `first` are exactly the ids `first` .. `first + n - 1`. */
  lemma AllocatedIds(first: nat, n: nat, m: Material)
    ensures forall k :: k in Ids(Allocate(first, n, m)) <==> first <= k < first + n
  {
    var r := Allocate(first, n, m);
    forall k | first <= k < first + n
      ensures k in Ids(r)
    {
      assert r[k - first].Some? && r[k - first].value.id == k;
    }
  }

  /**
   * `Spawn(mat)`: a null material changes nothing; when objects exist, swap
   * their material and allocate nothing; otherwise allocate `count` new
   * objects drawing with `mat`.
   */
  function Spawn(s: Spawner, mat: Option<Material>): (s': Spawner)
    ensures mat.None? ==> s' == s
    ensures mat.Some? ==> s'.currentMaterial == mat && s'.spawned.Some? && AllDrawWith(s'.spawned.value, mat.value)
    ensures mat.Some? && Populated(s) ==>
      && SameObjects(s.spawned.value, s'.spawned.value)
      && s'.children == s.children && s'.nextId == s.nextId
    ensures mat.Some? && !Populated(s) ==>
      && |s'.spawned.value| == s.count
      && (forall i :: 0 <= i < s.count ==>
            s'.spawned.value[i].Some? && s'.spawned.value[i].value.renderer == Some(Renderer(mat.value)))
    ensures s'.count == s.count
    ensures s'.materialNoInstancing == s.materialNoInstancing && s'.materialInstancing == s.materialInstancing
  {
    if mat.None? then s
    else if Populated(s) then
      s.(currentMaterial := mat, spawned := Some(SwapMaterials(s.spawned.value, mat.value)))
    else
      var created := Allocate(s.nextId, s.count, mat.value);
      s.(spawned := Some(created),
         currentMaterial := mat,
         children := s.children + Ids(created),
         nextId := s.nextId + s.count)
  }

  /**
   * A first spawn's objects are new: each has an id that was never a live
   * child, no two entries share an id, and they all become live children.
   */
  lemma FirstSpawnIsFresh(s: Spawner, m: Material)
    requires Inv(s) && !Populated(s)
    ensures var objs := Spawn(s, Some(m)).spawned.value;
      && (forall i :: 0 <= i < |objs| ==> objs[i].value.id !in s.children)
      && (forall i, j :: 0 <= i < j < |objs| ==> objs[i].value.id != objs[j].value.id)
      && Spawn(s, Some(m)).children == s.children + Ids(objs)
  {
  }

  /** Spawning keeps the bookkeeping invariant. */
  lemma SpawnKeepsInv(s: Spawner, mat: Option<Material>)
    requires Inv(s)
    ensures Inv(Spawn(s, mat))
  {
    if mat.Some? {
      if Populated(s) {
        var r := Spawn(s, mat).spawned.value;
        assert Ids(r) == Ids(s.spawned.value) by {
          assert forall i :: 0 <= i < |r| && r[i].Some? ==> r[i].value.id == s.spawned.value[i].value.id;
        }
      } else {
        AllocatedIds(s.nextId, s.count, mat.value);
      }
    }
  }

  /** `SpawnNoInstancing`: spawn with the non-instanced material. */
  function SpawnNoInstancing(s: Spawner): (s': Spawner)
    ensures s.materialNoInstancing.None? ==> s' == s
    ensures s.materialNoInstancing.Some? ==>
      s'.spawned.Some? && s'.currentMaterial == s.materialNoInstancing && AllDrawWith(s'.spawned.value, s.materialNoInstancing.value)
  {
    Spawn(s, s.materialNoInstancing)
  }

  /** `SpawnInstancing`: spawn with the instanced material. */
  function SpawnInstancing(s: Spawner): (s': Spawner)
    ensures s.materialInstancing.None? ==> s' == s
    ensures s.materialInstancing.Some? ==>
      s'.spawned.Some? && s'.currentMaterial == s.materialInstancing && AllDrawWith(s'.spawned.value, s.materialInstancing.value)
  {
    Spawn(s, s.materialInstancing)
  }

  /** `ClearAll`: destroy the referenced objects and every other child, then forget the array and the material. */
  function ClearAll(s: Spawner): (s': Spawner)
    ensures s'.spawned.None? && s'.currentMaterial.None? && s'.children == {}
    ensures !Populated(s')
    ensures s'.count == s.count && s'.nextId == s.nextId
    ensures s'.materialNoInstancing == s.materialNoInstancing && s'.materialInstancing == s.materialInstancing
  {
    s.(spawned := None, currentMaterial := None, children := {})
  }

  /** Clearing twice is clearing once. */
  lemma ClearAllIdempotent(s: Spawner)
    ensures ClearAll(ClearAll(s)) == ClearAll(s)
  {
  }

  /** Clearing restores the bookkeeping from any state: nothing is referenced and nothing is live. */
  lemma ClearAllKeepsInv(s: Spawner)
    ensures Inv(ClearAll(s))
  {
  }

  /** Spawning the same material twice is spawning it once. */
  lemma SpawnIdempotent(s: Spawner, m: Material)
    ensures Spawn(Spawn(s, Some(m)), Some(m)) == Spawn(s, Some(m))
  {
    var s1 := Spawn(s, Some(m));
    var s2 := Spawn(s1, Some(m));
    if Populated(s1) {
      var a := s1.spawned.value;
      var b := s2.spawned.value;
      assert forall i :: 0 <= i < |a| ==> b[i] == a[i];
      assert b == a;
    } else {
      assert s1.spawned.value == [] && s.count == 0;
      assert Ids([]) == {};
    }
  }

  /**
   * The array length is fixed by `count` at the first spawn: a later change
   * of `count` does not resize it, but takes effect after `ClearAll`.
   */
  lemma CountFixedUntilClear(s: Spawner, m: Material, m2: Material, newCount: nat)
    requires s.count > 0
    ensures var s1 := Spawn(ClearAll(s), Some(m)).(count := newCount);
      && |Spawn(s1, Some(m2)).spawned.value| == s.count
      && |Spawn(ClearAll(s1), Some(m2)).spawned.value| == newCount
  {
  }
}

=== FILE: msaa_controller.dfy ===
/**
 * The MSAA controller: four buttons each make one render-pipeline asset the
 * active pipeline; enabling the controller remembers the active pipeline and
 * disabling it puts that pipeline back when `restoreOnDisable` is set.
 *
 * Pipeline assets are ids. The active pipeline is the engine's global
 * quality setting, kept here beside the controller's fields; `None` is a
 * null asset (for the global setting: no pipeline asset set on the quality
 * level, so the graphics settings' default pipeline is used).
 */
module MsaaController {
  import opened Wrappers

  datatype Asset = Asset(id: nat)

  /** The four MSAA sample counts the controller offers. */
  datatype Level = Msaa0 | Msaa2 | Msaa4 | Msaa8

  /** The controller's fields together with the global active pipeline. */
  datatype Controller = Controller(
    urpMsaa0: Option<Asset>,
    urpMsaa2: Option<Asset>,
    urpMsaa4: Option<Asset>,
    urpMsaa8: Option<Asset>,
    restoreOnDisable: bool,
    previous: Option<Asset>,
    renderPipeline: Option<Asset>)

  /** The asset a button applies: 0x, 2x, 4x and 8x each have their own field. */
  function AssetFor(c: Controller, level: Level): Option<Asset>
  {
    match level
    case Msaa0 => c.urpMsaa0
    case Msaa2 => c.urpMsaa2
    case Msaa4 => c.urpMsaa4
    case Msaa8 => c.urpMsaa8
  }

  /** `Apply`: a null asset changes nothing; otherwise it becomes the active pipeline. */
  function Apply(c: Controller, asset: Option<Asset>): (c': Controller)
    ensures asset.None? ==> c' == c
    ensures asset.Some? ==> c'.renderPipeline == asset
    ensures c'.previous == c.previous && c'.restoreOnDisable == c.restoreOnDisable
    ensures c'.urpMsaa0 == c.urpMsaa0 && c'.urpMsaa2 == c.urpMsaa2
    ensures c'.urpMsaa4 == c.urpMsaa4 && c'.urpMsaa8 == c.urpMsaa8
  {
    if asset.None? then c else c.(renderPipeline := asset)
  }

  /** `SetMSAA0/2/4/8`: apply the level's own asset; a button whose asset is unassigned does nothing. */
  function SetMsaa(c: Controller, level: Level): (c': Controller)
    ensures level == Msaa0 ==> c'.renderPipeline == (if c.urpMsaa0.Some? then c.urpMsaa0 else c.renderPipeline)
    ensures level == Msaa2 ==> c'.renderPipeline == (if c.urpMsaa2.Some? then c.urpMsaa2 else c.renderPipeline)
    ensures level == Msaa4 ==> c'.renderPipeline == (if c.urpMsaa4.Some? then c.urpMsaa4 else c.renderPipeline)
    ensures level == Msaa8 ==> c'.renderPipeline == (if c.urpMsaa8.Some? then c.urpMsaa8 else c.renderPipeline)
    ensures c'.previous == c.previous && c'.restoreOnDisable == c.restoreOnDisable
    ensures AssetFor(c', level) == AssetFor(c, level)
  {
    Apply(c, AssetFor(c, level))
  }

  /** `OnEnable`: remember the active pipeline. */
  function OnEnable(c: Controller): (c': Controller)
    ensures c'.previous == c.renderPipeline
    ensures c'.renderPipeline == c.renderPipeline
  {
    c.(previous := c.renderPipeline)
  }

  /** `OnDisable`: put the remembered pipeline back, only when restoring is on and one was remembered. */
  function OnDisable(c: Controller): (c': Controller)
    ensures c.restoreOnDisable && c.previous.Some? ==> c'.renderPipeline == c.previous
    ensures !(c.restoreOnDisable && c.previous.Some?) ==> c' == c
  {
    if c.restoreOnDisable && c.previous.Some? then c.(renderPipeline := c.previous) else c
  }

  /** Pressing the buttons for `levels`, in order. */
  function Press(c: Controller, levels: seq<Level>): Controller
    decreases |levels|
  {
    if |levels| == 0 then c else Press(SetMsaa(c, levels[0]), levels[1..])
  }

  /** The pipeline after pressing `levels`: the last assigned asset pressed, or `current` if there is none. */
  function LastApplied(c: Controller, levels: seq<Level>, current: Option<Asset>): Option<Asset>
    decreases |levels|
  {
    if |levels| == 0 then current
    else
      var last := levels[|levels| - 1];
      if AssetFor(c, last).Some? then AssetFor(c, last)
      else LastApplied(c, levels[..|levels| - 1], current)
  }

  /**
   * Pressing buttons keeps the remembered pipeline, the flag and the asset
   * fields, and leaves active the last assigned asset pressed.
   */
  lemma {:induction false} PressEffect(c: Controller, levels: seq<Level>)
    ensures var c' := Press(c, levels);
      && c'.previous == c.previous
      && c'.restoreOnDisable == c.restoreOnDisable
      && (c'.urpMsaa0, c'.urpMsaa2, c'.urpMsaa4, c'.urpMsaa8) == (c.urpMsaa0, c.urpMsaa2, c.urpMsaa4, c.urpMsaa8)
      && c'.renderPipeline == LastApplied(c, levels, c.renderPipeline)
    decreases |levels|
  {
    if |levels| > 0 {
      var c1 := SetMsaa(c, levels[0]);
      PressEffect(c1, levels[1..]);
      LastAppliedSameAssets(c1, c, levels[1..], c1.renderPipeline);
      LastAppliedFirst(c, levels, c.renderPipeline);
    }
  }

  /** Peeling the first press: what follows it overrides it unless nothing later is assigned. */
  lemma {:induction false} LastAppliedFirst(c: Controller, levels: seq<Level>, current: Option<Asset>)
    requires |levels| > 0
    ensures LastApplied(c, levels, current)
         == LastApplied(c, levels[1..], if AssetFor(c, levels[0]).Some? then AssetFor(c, levels[0]) else current)
    decreases |levels|
  {
    if |levels| > 1 {
      LastAppliedFirst(c, levels[..|levels| - 1], current);
      assert levels[..|levels| - 1][1..] == levels[1..][..|levels| - 2];
    }
  }

  /**
   * Enable, press any buttons, disable: with restoring on and a pipeline
   * asset set on the quality level at enable time, that asset is active again.
   */
  lemma SessionRestoresPipeline(c: Controller, levels: seq<Level>)
    requires c.restoreOnDisable && c.renderPipeline.Some?
    ensures OnDisable(Press(OnEnable(c), levels)).renderPipeline == c.renderPipeline
  {
    PressEffect(OnEnable(c), levels);
  }

  /** With restoring off, disabling keeps whatever the buttons left active. */
  lemma SessionWithoutRestoreKeepsLastApplied(c: Controller, levels: seq<Level>)
    requires !c.restoreOnDisable
    ensures OnDisable(Press(OnEnable(c), levels)).renderPipeline == LastApplied(c, levels, c.renderPipeline)
  {
    PressEffect(OnEnable(c), levels);
    LastAppliedSameAssets(OnEnable(c), c, levels, c.renderPipeline);
  }

  /**
   * With no pipeline asset set on the quality level at enable time, nothing
   * is remembered, and disabling keeps whatever the buttons left active.
   */
  lemma SessionFromNullPipelineKeepsLastApplied(c: Controller, levels: seq<Level>)
    requires c.renderPipeline.None?
    ensures OnDisable(Press(OnEnable(c), levels)).renderPipeline == LastApplied(c, levels, None)
  {
    PressEffect(OnEnable(c), levels);
    LastAppliedSameAssets(OnEnable(c), c, levels, None);
  }

  /** `LastApplied` depends only on the asset fields. */
  lemma {:induction false} LastAppliedSameAssets(a: Controller, b: Controller, levels: seq<Level>, current: Option<Asset>)
    requires (a.urpMsaa0, a.urpMsaa2, a.urpMsaa4, a.urpMsaa8) == (b.urpMsaa0, b.urpMsaa2, b.urpMsaa4, b.urpMsaa8)
    ensures LastApplied(a, levels, current) == LastApplied(b, levels, current)
    decreases |levels|
  {
    if |levels| > 0 {
      LastAppliedSameAssets(a, b, levels[..|levels| - 1], current);
    }
  }
}

=== FILE: overdraw_toggle.dfy ===
/**
 * The overdraw toggle: "On" and "Nuke" rebuild a stack of transparent quads
 * in front of the camera (12 and 200 by default), all sharing one material
 * instance with the configured alpha; "Off" clears the stack and hides the
 * experiment.
 *
 * Scene objects are reduced to identities: transforms and materials are ids,
 * a quad is an id with its parent, local position, scale and material
 * instance, and `live` holds the ids of quads that exist in the scene.
 */
module OverdrawToggle {
  import opened Wrappers

  datatype Vec2 = Vec2(x: real, y: real)
  datatype Vec3 = Vec3(x: real, y: real, z: real)

  datatype Transform = Transform(id: nat)
  datatype Material = Material(id: nat)

  /** The material copy made for one build, with its colour's alpha overridden. */
  datatype MaterialInstance = MaterialInstance(id: nat, source: Material, alpha: real)

  /** One quad of the stack, as placed under the stack root. */
  datatype Quad = Quad(
    id: nat,
    parent: Transform,
    localPosition: Vec3,
    localScale: Vec3,
    material: MaterialInstance)

  /** The serialized fields: scene references (`None` when unassigned) and geometry settings. */
  datatype Config = Config(
    xrCamera: Option<Transform>,
    experimentRoot: Option<Transform>,
    stackRoot: Option<Transform>,
    overdrawMaterial: Option<Material>,
    quadCount: nat,
    quadNukeCount: nat,
    quadSize: Vec2,
    startDistance: real,
    zStep: real,
    alpha: real,
    attachToCamera: bool)

  /**
   * The toggle and the scene state it drives: the `_quads` array (`None` for
   * null, entries `None` for destroyed quads), whether the experiment root is
   * active, the stack root's parent, the live quad ids and the next unused id.
   */
  datatype Toggle = Toggle(
    cfg: Config,
    quads: Option<seq<Option<Quad>>>,
    rootActive: bool,
    stackParent: Option<Transform>,
    live: set<nat>,
    nextId: nat)

  /** All four scene references are assigned. */
  predicate HasReferences(cfg: Config)
  {
    && cfg.experimentRoot.Some?
    && cfg.xrCamera.Some?
    && cfg.stackRoot.Some?
    && cfg.overdrawMaterial.Some?
  }

  /** The ids of the quads an array references. */
  function QuadIds(quads: Option<seq<Option<Quad>>>): set<nat>
  {
    if quads.None? then {}
    else set i | 0 <= i < |quads.value| && quads.value[i].Some? :: quads.value[i].value.id
  }

  /** The live quads are exactly the ones `_quads` references, and every id is below `nextId`. */
  ghost predicate Inv(t: Toggle)
  {
    && t.live == QuadIds(t.quads)
    && (forall id :: id in t.live ==> id < t.nextId)
  }

  /**
   * A toggle as the scene loads it: `_quads` is null and no quad exists yet;
   * whether the experiment root is active and where the stack root hangs are
   * whatever the scene sets up.
   */
  function Initial(cfg: Config, rootActive: bool, stackParent: Option<Transform>): (t: Toggle)
    ensures Inv(t)
    ensures t.quads.None? && t.live == {} && t.cfg == cfg
  {
    Toggle(cfg, None, rootActive, stackParent, {}, 0)
  }

  /** `Awake`: hide the experiment root if it is assigned. */
  function Awake(t: Toggle): (t': Toggle)
    ensures t.cfg.experimentRoot.Some? ==> !t'.rootActive
    ensures t.cfg.experimentRoot.None? ==> t' == t
    ensures t'.quads == t.quads && t'.live == t.live
  {
    if t.cfg.experimentRoot.Some? then t.(rootActive := false) else t
  }

  /** Hiding the experiment root touches neither the quads nor the ids. */
  lemma AwakeKeepsInv(t: Toggle)
    requires Inv(t)
    ensures Inv(Awake(t))
  {
  }

  /** `ClearQuads`: destroy every referenced quad and drop the array; nothing happens when there is none. */
  function ClearQuads(t: Toggle): (t': Toggle)
    ensures t'.quads.None?
    ensures t'.live == t.live - QuadIds(t.quads)
    ensures t.quads.None? ==> t' == t
    ensures t'.cfg == t.cfg && t'.rootActive == t.rootActive && t'.stackParent == t.stackParent
  {
    if t.quads.None? then t
    else t.(quads := None, live := t.live - QuadIds(t.quads))
  }

  /** Clearing twice is clearing once. */
  lemma ClearQuadsIdempotent(t: Toggle)
    ensures ClearQuads(ClearQuads(t)) == ClearQuads(t)
  {
  }

  /** Quad `i` of a build: under the stack root, `i` steps of `zStep` beyond `startDistance`. */
  function MakeQuad(cfg: Config, mat: MaterialInstance, id: nat, i: nat): Quad
    requires cfg.stackRoot.Some?
  {
    Quad(id, cfg.stackRoot.value,
         Vec3(0.0, 0.0, cfg.startDistance + i as real * cfg.zStep),
         Vec3(cfg.quadSize.x, cfg.quadSize.y, 1.0),
         mat)
  }

  /** Quad `i` of a stack sits where the geometry settings put it. */
  predicate PlacedAt(cfg: Config, q: Quad, i: int)
    requires cfg.stackRoot.Some?
  {
    && q.parent == cfg.stackRoot.value
    && q.localPosition == Vec3(0.0, 0.0, cfg.startDistance + i as real * cfg.zStep)
    && q.localScale == Vec3(cfg.quadSize.x, cfg.quadSize.y, 1.0)
  }

  /** A complete stack of `n` quads, each placed by its index, all sharing one instance of the overdraw material with the configured alpha. */
  predicate IsStack(cfg: Config, quads: seq<Option<Quad>>, n: nat)
    requires cfg.stackRoot.Some? && cfg.overdrawMaterial.Some?
  {
    && |quads| == n
    && (forall i :: 0 <= i < n ==> quads[i].Some? && PlacedAt(cfg, quads[i].value, i))
    && (forall i :: 0 <= i < n ==>
          quads[i].value.material.source == cfg.overdrawMaterial.value
          && quads[i].value.material.alpha == cfg.alpha)
    && (forall i, j :: 0 <= i < n && 0 <= j < n ==> quads[i].value.material == quads[j].value.material)
  }

  /**
   * `BuildQuads(n)`: make one material instance with the configured alpha,
   * then `n` quads that share it. Only reached once the references are checked.
   */
  function BuildQuads(t: Toggle, n: nat): (t': Toggle)
    requires HasReferences(t.cfg)
    ensures t'.quads.Some? && IsStack(t.cfg, t'.quads.value, n)
    ensures t'.live == t.live + QuadIds(t'.quads)
    ensures forall id :: id in QuadIds(t'.quads) ==> t.nextId <= id < t'.nextId
    ensures t'.cfg == t.cfg && t'.rootActive == t.rootActive && t'.stackParent == t.stackParent
  {
    var mat := MaterialInstance(t.nextId, t.cfg.overdrawMaterial.value, t.cfg.alpha);
    var quads := seq(n, i requires 0 <= i < n => Some(MakeQuad(t.cfg, mat, t.nextId + 1 + i, i)));
    assert forall i :: 0 <= i < n ==> quads[i] == Some(MakeQuad(t.cfg, mat, t.nextId + 1 + i, i));
    assert forall i :: 0 <= i < n ==> PlacedAt(t.cfg, quads[i].value, i);
    t.(quads := Some(quads), live := t.live + QuadIds(Some(quads)), nextId := t.nextId + 1 + n)
  }

  /** Guard, show the root, re-parent the stack, clear, and build `n` quads: the body shared by On and Nuke. */
  function Rebuild(t: Toggle, n: nat): (t': Toggle)
    ensures !HasReferences(t.cfg) ==> t' == t
    ensures HasReferences(t.cfg) ==>
      && t'.quads.Some? && IsStack(t.cfg, t'.quads.value, n)
      && t'.rootActive
      && t'.stackParent == (if t.cfg.attachToCamera then t.cfg.xrCamera else t.cfg.experimentRoot)
      && t'.live == (t.live - QuadIds(t.quads)) + QuadIds(t'.quads)
      && (forall id :: id in QuadIds(t'.quads) ==> id >= t.nextId)
    ensures t'.cfg == t.cfg
  {
    if !HasReferences(t.cfg) then t
    else
      var shown := t.(rootActive := true,
                      stackParent := if t.cfg.attachToCamera then t.cfg.xrCamera else t.cfg.experimentRoot);
      BuildQuads(ClearQuads(shown), n)
  }

  /** `OverdrawOn`: rebuild the stack with `quadCount` quads. */
  function OverdrawOn(t: Toggle): (t': Toggle)
    ensures !HasReferences(t.cfg) ==> t' == t
    ensures HasReferences(t.cfg) ==>
      && t'.quads.Some? && IsStack(t.cfg, t'.quads.value, t.cfg.quadCount)
      && t'.rootActive
      && t'.stackParent == (if t.cfg.attachToCamera then t.cfg.xrCamera else t.cfg.experimentRoot)
  {
    Rebuild(t, t.cfg.quadCount)
  }

  /** `OverdrawNuke`: rebuild the stack with `quadNukeCount` quads. */
  function OverdrawNuke(t: Toggle): (t': Toggle)
    ensures !HasReferences(t.cfg) ==> t' == t
    ensures HasReferences(t.cfg) ==>
      && t'.quads.Some? && IsStack(t.cfg, t'.quads.value, t.cfg.quadNukeCount)
      && t'.rootActive
      && t'.stackParent == (if t.cfg.attachToCamera then t.cfg.xrCamera else t.cfg.experimentRoot)
  {
    Rebuild(t, t.cfg.quadNukeCount)
  }

  /**
   * `OverdrawOff`: clear the stack, put the stack root back under the
   * experiment root when both are assigned, and hide the experiment root.
   */
  function OverdrawOff(t: Toggle): (t': Toggle)
    ensures t'.quads.None?
    ensures t'.live == t.live - QuadIds(t.quads)
    ensures t.cfg.experimentRoot.Some? ==> !t'.rootActive
    ensures t.cfg.experimentRoot.None? ==> t'.rootActive == t.rootActive
    ensures t'.stackParent ==
      (if t.cfg.stackRoot.Some? && t.cfg.experimentRoot.Some? then t.cfg.experimentRoot else t.stackParent)
    ensures t'.cfg == t.cfg
  {
    var cleared := ClearQuads(t);
    var parented :=
      if t.cfg.stackRoot.Some? && t.cfg.experimentRoot.Some?
      then cleared.(stackParent := t.cfg.experimentRoot)
      else cleared;
    if t.cfg.experimentRoot.Some? then parented.(rootActive := false) else parented
  }

  /**
   * Every rebuild keeps the bookkeeping: after On or Nuke the live quads are
   * exactly the new stack, so every earlier quad has been destroyed.
   */
  lemma RebuildKeepsInv(t: Toggle, n: nat)
    requires Inv(t)
    ensures Inv(Rebuild(t, n))
    ensures HasReferences(t.cfg) ==> Rebuild(t, n).live == QuadIds(Rebuild(t, n).quads)
  {
    if HasReferences(t.cfg) {
      var shown := t.(rootActive := true,
                      stackParent := if t.cfg.attachToCamera then t.cfg.xrCamera else t.cfg.experimentRoot);
      var cleared := ClearQuads(shown);
      assert cleared.live == {};
      var built := BuildQuads(cleared, n);
      assert built.live == QuadIds(built.quads);
    }
  }

  /** After Off no quad is left alive. */
  lemma OffLeavesNoQuads(t: Toggle)
    requires Inv(t)
    ensures Inv(OverdrawOff(t))
    ensures OverdrawOff(t).live == {}
  {
  }

  /** With a positive `zStep` the quads are strictly ordered by distance, nearest first. */
  lemma {:induction false} StackDepthIncreasing(cfg: Config, quads: seq<Option<Quad>>, n: nat, i: int, j: int)
    requires cfg.stackRoot.Some? && cfg.overdrawMaterial.Some?
    requires IsStack(cfg, quads, n)
    requires cfg.zStep > 0.0
    requires 0 <= i < j < n
    ensures quads[i].value.localPosition.z < quads[j].value.localPosition.z
  {
    assert PlacedAt(cfg, quads[i].value, i) && PlacedAt(cfg, quads[j].value, j);
    assert (j - i) as real * cfg.zStep > 0.0;
  }
}

=== FILE: performance_overlay.dfy ===
/**
 * The performance overlay's own logic: a bounded FIFO of frame times with a
 * running sum, the smoothed frame time and FPS derived from it, the
 * nanosecond-to-millisecond averaging of a profiler recorder's samples with
 * its -1 "no data" sentinel, and the "N/A" display branch.
 *
 * Durations are `real`s: single- and double-precision rounding is idealised
 * away. Profiler recorders are plain values handed in on every update.
 */
module PerformanceOverlay {
  import opened Wrappers

  // ---------------------------------------------------------------------------
  // Sums and means
  // ---------------------------------------------------------------------------

  /** Sum of `s`, folded in arrival order (oldest first). */
  function Sum(s: seq<real>): real
  {
    if |s| == 0 then 0.0 else Sum(s[..|s| - 1]) + s[|s| - 1]
  }

  /** Arithmetic mean; the reference the smoothed values are compared with. */
  ghost function Mean(s: seq<real>): real
    requires |s| > 0
  {
    Sum(s) / |s| as real
  }

  /** Appending a value adds exactly that value to the sum. */
  lemma SumAppend(s: seq<real>, x: real)
    ensures Sum(s + [x]) == Sum(s) + x
  {
    assert (s + [x])[..|s|] == s;
  }

  /** Dropping the oldest value subtracts exactly that value from the sum. */
  lemma {:induction false} SumDropFirst(s: seq<real>)
    requires |s| > 0
    ensures Sum(s[1..]) == Sum(s) - s[0]
  {
    if |s| == 1 {
      assert s[1..] == [];
    } else {
      var init := s[..|s| - 1];
      SumDropFirst(init);
      assert s[1..][..|s| - 2] == init[1..];
    }
  }

  /** A sum of non-negative values is non-negative. */
  lemma {:induction false} SumNonNegative(s: seq<real>)
    requires forall i :: 0 <= i < |s| ==> s[i] >= 0.0
    ensures Sum(s) >= 0.0
  {
    if |s| > 0 {
      SumNonNegative(s[..|s| - 1]);
    }
  }

  /**
   * Division as the overlay's `float`s perform it: a zero divisor gives no
   * finite value (NaN for 0/0, an infinity otherwise), modelled as `None`.
   */
  function Divide(x: real, y: real): (q: Option<real>)
    ensures q.Some? <==> y != 0.0
    ensures q.Some? ==> q.value * y == x
  {
    if y == 0.0 then None else Some(x / y)
  }

  // ---------------------------------------------------------------------------
  // Frame-time window (PerformanceOverlay.Update, lines 58-68)
  // ---------------------------------------------------------------------------

  /** The queued frame times in milliseconds, oldest first, and the running sum kept beside them. */
  datatype FrameWindow = FrameWindow(frameTimes: seq<real>, frameTimeSum: real)

  const EmptyWindow := FrameWindow([], 0.0)

  /** How many values a window of `sampleCount` can hold once it has settled. */
  function Capacity(sampleCount: int): nat
  {
    if sampleCount < 0 then 0 else sampleCount
  }

  /** The running sum is the sum of the queue, and the queue fits the capacity. */
  ghost predicate Valid(w: FrameWindow, sampleCount: int)
  {
    && w.frameTimeSum == Sum(w.frameTimes)
    && |w.frameTimes| <= Capacity(sampleCount)
  }

  /**
   * Enqueue one frame time and add it to the sum; if the queue then holds
   * more than `sampleCount` values, dequeue the oldest once and subtract it.
   */
  function Push(w: FrameWindow, frameTime: real, sampleCount: int): (w': FrameWindow)
    ensures sampleCount >= 1 ==> |w'.frameTimes| >= 1 && w'.frameTimes[|w'.frameTimes| - 1] == frameTime
    ensures |w'.frameTimes| == |w.frameTimes| || |w'.frameTimes| == |w.frameTimes| + 1
  {
    var queued := w.frameTimes + [frameTime];
    var sum := w.frameTimeSum + frameTime;
    if |queued| > sampleCount then FrameWindow(queued[1..], sum - queued[0])
    else FrameWindow(queued, sum)
  }

  /** One push keeps the window valid: the sum tracks the queue and the length stays within capacity. */
  lemma {:induction false} PushKeepsValid(w: FrameWindow, frameTime: real, sampleCount: int)
    requires Valid(w, sampleCount)
    ensures Valid(Push(w, frameTime, sampleCount), sampleCount)
  {
    var queued := w.frameTimes + [frameTime];
    SumAppend(w.frameTimes, frameTime);
    if |queued| > sampleCount {
      SumDropFirst(queued);
    }
  }

  /** The window after pushing every frame time of `frames`, in order, into an empty one. */
  function Run(frames: seq<real>, sampleCount: int): FrameWindow
  {
    if |frames| == 0 then EmptyWindow
    else Push(Run(frames[..|frames| - 1], sampleCount), frames[|frames| - 1], sampleCount)
  }

  function Min(a: int, b: int): int
  {
    if a <= b then a else b
  }

  /** Pushing onto a window that holds the last values of `prior` leaves the last values of `prior + [x]`. */
  lemma {:induction false} PushSlides(w: FrameWindow, prior: seq<real>, x: real, sampleCount: int)
    requires w.frameTimes == prior[|prior| - Min(|prior|, Capacity(sampleCount))..]
    ensures Push(w, x, sampleCount).frameTimes
         == (prior + [x])[|prior| + 1 - Min(|prior| + 1, Capacity(sampleCount))..]
  {
    var n := |prior|;
    var kept := Min(n, Capacity(sampleCount));
    var queued := w.frameTimes + [x];
    assert queued == (prior + [x])[n - kept..];
    if |queued| > sampleCount {
      assert queued[1..] == (prior + [x])[n - kept + 1..];
    }
  }

  /** After any run the window is valid. */
  lemma {:induction false} RunIsValid(frames: seq<real>, sampleCount: int)
    ensures Valid(Run(frames, sampleCount), sampleCount)
  {
    var n := |frames|;
    if n > 0 {
      var prefix := frames[..n - 1];
      RunIsValid(prefix, sampleCount);
      PushKeepsValid(Run(prefix, sampleCount), frames[n - 1], sampleCount);
    }
  }

  /** A non-empty sequence is its prefix followed by its last element. */
  lemma SplitLast(frames: seq<real>)
    requires |frames| > 0
    ensures frames[..|frames| - 1] + [frames[|frames| - 1]] == frames
  {
  }

  /** After any run the window holds exactly the last min(#frames, capacity) frame times, in arrival order. */
  lemma {:induction false} RunIsSuffix(frames: seq<real>, sampleCount: int)
    ensures Run(frames, sampleCount).frameTimes == frames[|frames| - Min(|frames|, Capacity(sampleCount))..]
  {
    var n := |frames|;
    if n > 0 {
      var prefix, x := frames[..n - 1], frames[n - 1];
      RunIsSuffix(prefix, sampleCount);
      PushSlides(Run(prefix, sampleCount), prefix, x, sampleCount);
      SplitLast(frames);
    }
  }

  /**
   * FIFO: after any run the window holds exactly the last
   * min(#frames, capacity) frame times in arrival order, and it is valid.
   */
  lemma RunKeepsLastFrames(frames: seq<real>, sampleCount: int)
    ensures Run(frames, sampleCount).frameTimes == frames[|frames| - Min(|frames|, Capacity(sampleCount))..]
    ensures Valid(Run(frames, sampleCount), sampleCount)
  {
    RunIsSuffix(frames, sampleCount);
    RunIsValid(frames, sampleCount);
  }

  /** The smoothed frame time (ms) and the FPS derived from it; `None` where the float result is not finite. */
  datatype FrameStats = FrameStats(avgFrameTime: Option<real>, fps: Option<real>)

  /**
   * Average over the current occupancy (not the capacity), and
   * fps = 1000 / average.
   */
  function Stats(w: FrameWindow): (st: FrameStats)
    ensures st.avgFrameTime.Some? <==> |w.frameTimes| > 0
    ensures st.avgFrameTime.Some? ==> st.avgFrameTime.value * |w.frameTimes| as real == w.frameTimeSum
    ensures st.fps.Some? <==> st.avgFrameTime.Some? && st.avgFrameTime.value != 0.0
    ensures st.fps.Some? ==> st.fps.value * st.avgFrameTime.value == 1000.0
  {
    var avg := Divide(w.frameTimeSum, |w.frameTimes| as real);
    var fps := if avg.Some? then Divide(1000.0, avg.value) else None;
    FrameStats(avg, fps)
  }

  /**
   * After at least one frame with `sampleCount >= 1` the average is defined and is
   * the mean of the last min(#frames, sampleCount) frame times.
   */
  lemma AverageIsMeanOfLastFrames(frames: seq<real>, sampleCount: int)
    requires |frames| >= 1 && sampleCount >= 1
    ensures var kept := frames[|frames| - Min(|frames|, sampleCount)..];
      && |kept| >= 1
      && Stats(Run(frames, sampleCount)).avgFrameTime == Some(Mean(kept))
  {
    RunKeepsLastFrames(frames, sampleCount);
  }

  /** With `sampleCount <= 0` every pushed value is evicted at once: the divisor is 0 and no average exists. */
  lemma NonPositiveSampleCountHasNoAverage(frames: seq<real>, sampleCount: int)
    requires sampleCount <= 0
    ensures Run(frames, sampleCount).frameTimes == []
    ensures Stats(Run(frames, sampleCount)).avgFrameTime.None?
    ensures Stats(Run(frames, sampleCount)).fps.None?
  {
    RunKeepsLastFrames(frames, sampleCount);
  }

  /** With a capacity of 2, frames 10, 20, 30 leave [20, 30]: mean 25 ms, 40 FPS. */
  lemma ExampleCapacityTwo()
    ensures Run([10.0, 20.0, 30.0], 2).frameTimes == [20.0, 30.0]
    ensures Stats(Run([10.0, 20.0, 30.0], 2)) == FrameStats(Some(25.0), Some(40.0))
  {
    RunKeepsLastFrames([10.0, 20.0, 30.0], 2);
    assert Sum([20.0, 30.0]) == 50.0 by {
      assert [20.0, 30.0][..1] == [20.0];
      assert [20.0][..0] == [];
    }
  }

  /** With a capacity of 3, frames 10, 20, 30 give a mean of 20 ms and 50 FPS. */
  lemma ExampleCapacityThree()
    ensures Stats(Run([10.0, 20.0, 30.0], 3)) == FrameStats(Some(20.0), Some(50.0))
  {
    var frames := [10.0, 20.0, 30.0];
    RunKeepsLastFrames(frames, 3);
    assert Sum(frames) == 60.0 by {
      assert frames[..2] == [10.0, 20.0];
      assert frames[..2][..1] == [10.0];
      assert [10.0][..0] == [];
    }
  }

  // ---------------------------------------------------------------------------
  // Recorder averages (GetRecorderAverageMs, lines 83-102) and FormatMs (104-108)
  // ---------------------------------------------------------------------------

  /**
   * A profiler recorder as one update sees it: whether it is valid, the
   * sample count it reports, and the batch of sample values (nanoseconds)
   * that copying its samples out yields.
   */
  datatype Recorder = Recorder(valid: bool, count: int, copied: seq<int>)

  const NanosPerMs: real := 1000000.0

  /** The value returned when a recorder has nothing to average. */
  const Unavailable: real := -1.0

  /** The recorder is valid, reports samples, and the copied batch is non-empty. */
  predicate HasSamples(rec: Recorder)
  {
    rec.valid && rec.count > 0 && |rec.copied| > 0
  }

  /** The sample values widened to reals, as `GetRecorderAverageMs` sums them into a `double`. */
  function AsReals(s: seq<int>): (r: seq<real>)
    ensures |r| == |s|
    ensures forall i :: 0 <= i < |s| ==> r[i] == s[i] as real
  {
    seq(|s|, i requires 0 <= i < |s| => s[i] as real)
  }

  /**
   * Mean of the copied batch in milliseconds, or the sentinel -1 when the
   * recorder is invalid, reports no samples, or the copied batch is empty.
   */
  function RecorderAverageMs(rec: Recorder): (ms: real)
    ensures !HasSamples(rec) ==> ms == Unavailable
    ensures HasSamples(rec) ==> ms * NanosPerMs * |rec.copied| as real == Sum(AsReals(rec.copied))
  {
    if !rec.valid then Unavailable
    else if rec.count <= 0 then Unavailable
    else if |rec.copied| == 0 then Unavailable
    else Sum(AsReals(rec.copied)) / |rec.copied| as real / NanosPerMs
  }

  /** Non-negative samples give a non-negative average, so -1 then means "no samples" and nothing else. */
  lemma RecorderAverageNonNegative(rec: Recorder)
    requires HasSamples(rec)
    requires forall i :: 0 <= i < |rec.copied| ==> rec.copied[i] >= 0
    ensures RecorderAverageMs(rec) >= 0.0
    ensures RecorderAverageMs(rec) == Mean(AsReals(rec.copied)) / NanosPerMs
  {
    SumNonNegative(AsReals(rec.copied));
  }

  /** `GetRecorderAverageMs`'s summing loop over the copied batch; it computes `RecorderAverageMs`. */
  method GetRecorderAverageMs(rec: Recorder) returns (ms: real)
    ensures ms == RecorderAverageMs(rec)
    ensures ms == Unavailable <== !HasSamples(rec)
  {
    if !rec.valid {
      return Unavailable;
    }
    if rec.count <= 0 {
      return Unavailable;
    }
    var samples := rec.copied;
    if |samples| == 0 {
      return Unavailable;
    }
    ghost var values := AsReals(samples);
    var sum := 0.0;
    var i := 0;
    while i < |samples|
      invariant 0 <= i <= |samples|
      invariant sum == Sum(values[..i])
    {
      assert values[..i + 1][..i] == values[..i];
      sum := sum + samples[i] as real;
      i := i + 1;
    }
    assert values[..|samples|] == values;
    ms := sum / |samples| as real / NanosPerMs;
  }

  /**
   * What the overlay shows for one recorder: `NotAvailable` is the text
   * "N/A"; `Millis` is a millisecond value (its digits are not modelled).
   */
  datatype MsLabel = NotAvailable | Millis(ms: real)

  /** Any negative value shows as "N/A"; every other value, zero included, is shown. */
  function FormatMs(ms: real): (shown: MsLabel)
    ensures shown.NotAvailable? <==> ms < 0.0
    ensures shown.Millis? ==> shown.ms == ms
  {
    if ms >= 0.0 then Millis(ms) else NotAvailable
  }

  /**
   * With non-negative samples a recorder shows "N/A" exactly when it has
   * nothing to average; a genuine 0 ms average is shown as a value.
   */
  lemma RecorderShowsNotAvailableIffNoSamples(rec: Recorder)
    requires forall i :: 0 <= i < |rec.copied| ==> rec.copied[i] >= 0
    ensures FormatMs(RecorderAverageMs(rec)).NotAvailable? <==> !HasSamples(rec)
  {
    if HasSamples(rec) {
      RecorderAverageNonNegative(rec);
    }
  }

  // ---------------------------------------------------------------------------
  // One overlay update
  // ---------------------------------------------------------------------------

  /** The overlay's state: its configured window size and its frame-time window. */
  datatype Overlay = Overlay(sampleCount: int, window: FrameWindow)

  /** The values one update writes to the overlay text. */
  datatype Readout = Readout(
    fps: Option<real>,
    frameMs: Option<real>,
    cpuMain: MsLabel,
    renderThread: MsLabel,
    gpu: MsLabel)

  /**
   * One `Update`: record `unscaledDeltaTime` seconds as a frame time in ms,
   * derive the average and FPS, and average the three recorders.
   */
  function Update(o: Overlay, unscaledDeltaTime: real, cpu: Recorder, render: Recorder, gpu: Recorder)
    : (r: (Overlay, Readout))
    ensures r.0.sampleCount == o.sampleCount
    ensures o.sampleCount >= 1 ==> r.1.frameMs.Some?
    ensures r.1.cpuMain.NotAvailable? <== !HasSamples(cpu)
    ensures r.1.renderThread.NotAvailable? <== !HasSamples(render)
    ensures r.1.gpu.NotAvailable? <== !HasSamples(gpu)
  {
    var frameTime := unscaledDeltaTime * 1000.0;
    var w := Push(o.window, frameTime, o.sampleCount);
    var st := Stats(w);
    (Overlay(o.sampleCount, w),
     Readout(st.fps, st.avgFrameTime,
             FormatMs(RecorderAverageMs(cpu)),
             FormatMs(RecorderAverageMs(render)),
             FormatMs(RecorderAverageMs(gpu))))
  }

  /** An update keeps the frame-time window valid. */
  lemma UpdateKeepsValid(o: Overlay, unscaledDeltaTime: real, cpu: Recorder, render: Recorder, gpu: Recorder)
    requires Valid(o.window, o.sampleCount)
    ensures Valid(Update(o, unscaledDeltaTime, cpu, render, gpu).0.window, o.sampleCount)
  {
    PushKeepsValid(o.window, unscaledDeltaTime * 1000.0, o.sampleCount);
  }

  /** Frame times in ms for a sequence of `unscaledDeltaTime` values in seconds. */
  function ToMillis(deltas: seq<real>): (ms: seq<real>)
    ensures |ms| == |deltas|
    ensures forall i :: 0 <= i < |deltas| ==> ms[i] == deltas[i] * 1000.0
  {
    seq(|deltas|, i requires 0 <= i < |deltas| => deltas[i] * 1000.0)
  }

  /** The overlay after one `Update` per value of `deltas`, in order, with the given recorders. */
  function Updates(o: Overlay, deltas: seq<real>, cpu: Recorder, render: Recorder, gpu: Recorder): Overlay
  {
    if |deltas| == 0 then o
    else Update(Updates(o, deltas[..|deltas| - 1], cpu, render, gpu), deltas[|deltas| - 1], cpu, render, gpu).0
  }

  /** Updating a fresh overlay is pushing the frame times in ms into an empty window. */
  lemma {:induction false} UpdatesRun(sampleCount: int, deltas: seq<real>, cpu: Recorder, render: Recorder, gpu: Recorder)
    ensures Updates(Overlay(sampleCount, EmptyWindow), deltas, cpu, render, gpu)
         == Overlay(sampleCount, Run(ToMillis(deltas), sampleCount))
  {
    var n := |deltas|;
    if n > 0 {
      var o := Overlay(sampleCount, EmptyWindow);
      var prior := Updates(o, deltas[..n - 1], cpu, render, gpu);
      UpdatesRun(sampleCount, deltas[..n - 1], cpu, render, gpu);
      assert Update(prior, deltas[n - 1], cpu, render, gpu).0
          == Overlay(sampleCount, Push(prior.window, deltas[n - 1] * 1000.0, sampleCount));
      assert ToMillis(deltas)[..n - 1] == ToMillis(deltas[..n - 1]);
    }
  }

  /**
   * FIFO for the overlay itself: after any sequence of updates from a fresh
   * overlay the window keeps exactly the last min(#updates, capacity) frame
   * times in ms, in arrival order, and stays valid.
   */
  lemma UpdatesKeepLastFrames(sampleCount: int, deltas: seq<real>, cpu: Recorder, render: Recorder, gpu: Recorder)
    ensures var w := Updates(Overlay(sampleCount, EmptyWindow), deltas, cpu, render, gpu).window;
      && w.frameTimes == ToMillis(deltas)[|deltas| - Min(|deltas|, Capacity(sampleCount))..]
      && Valid(w, sampleCount)
  {
    UpdatesRun(sampleCount, deltas, cpu, render, gpu);
    RunKeepsLastFrames(ToMillis(deltas), sampleCount);
  }
}

=== FILE: wrappers.dfy ===
/** Optional values: `None` stands for a null reference, or for a value that does not exist. */
module Wrappers {

  datatype Option<+T> = None | Some(value: T)
}
